=== FILE: README.md ===
# GetFlix IMDB Grabber 0.1, modelled in Dafny

GetFlix IMDB Grabber is a Greasemonkey script. It walks the Netflix
"movies you've seen" listing page by page. For each rated movie it scrapes
the id, title, year, MPAA rating, genre and star rating. It then asks IMDB
for the movie's title id and writes one tab-separated row per movie into a
text area. The first row holds the column titles.

The script is driven by one global work queue, `actionQueue`. Each entry is
a tag with arguments: `getRatingsPage`, `parseRatings`, `getImdbId`,
`parseImdb` or `saveRating`. A timer calls `runQueue`, which removes the
head entry and dispatches it. Every handler appends its follow-up entries at
the tail. A network reply arrives through an `onload` closure, which appends
the matching parse entry.

The model has five modules:

- `Options`: the `Option` type.
- `Text`: decimal digits and JavaScript's printing of a number of tenths,
  substring search, and tab joining and splitting.
- `Records`: the `detail` record, the header record and the row
  `saveRating` writes.
- `Pages`: what the script reads from a listing page and from an IMDB reply.
- `GetFlix`: the action queue. The class `Driver` holds `actionQueue`, the
  results text, and whether a `runQueue` timer is pending. One method models
  each of the script's functions.

Network replies are inputs. `Driver.Step` returns the request an action
starts. The caller later hands that request and the reply text to
`Driver.OnLoad`. The listing pattern and the IMDB search-results pattern are
given as functions of a `Scraper` value. The other tests are written out:
the `paginationLink-next` marker, the `<title>…Search…</title>` test and the
`/title/(tt\d+)/` link.

## Model

| member | source | states |
|---|---|---|
| `Text.NatToDecimal` | netflix-ratings-extractor.user.js:287 | the printed integer part is a non-empty digit string that denotes the number; it starts with `0` only when it is exactly `0`, so there is no leading zero |
| `Text.FormatTenths` | netflix-ratings-extractor.user.js:287 | the printed rating starts with a digit and holds only digits and `.`; it holds only digits exactly when the tenths digit is zero; it starts with `0` only for a rating below one, and then that `0` is the whole text or is followed by `.`, so there is no leading zero |
| `Text.FormatTenthsRoundTrip` | netflix-ratings-extractor.user.js:220 | the printed rating reads back as exactly the number of tenths stored |
| `Text.SplitJoin` | netflix-ratings-extractor.user.js:281-288 | splitting tab-joined fields at tabs gives the fields back when none holds a tab |
| `Records.Line` | netflix-ratings-extractor.user.js:281-288 | the row is the seven fields in column order, joined by tabs and ended by a newline |
| `Records.LineRoundTrip` | netflix-ratings-extractor.user.js:281-288 | when no field holds a tab or line break, the row minus its newline splits into exactly the record's seven fields, and it holds no other newline |
| `Records.HeaderLineIsColumnTitles` | netflix-ratings-extractor.user.js:110-118 | every field of the header record is its own column name, so the header row is the column titles |
| `Pages.ExtractDetail` | netflix-ratings-extractor.user.js:214-221 | a scraped record keeps the five captured text groups unchanged, each on one line, holds a numeric rating and has no IMDB id yet |
| `Pages.ExtractedRating` | netflix-ratings-extractor.user.js:220 | the rating written for a listing match is the gauge number divided by ten (50 gives 5, 35 gives 3.5) |
| `Pages.DigitRun` | netflix-ratings-extractor.user.js:260 | the run of digits `\d+` takes is all digits and ends at a non-digit or at the end of the reply |
| `Pages.LinkAt` | netflix-ratings-extractor.user.js:260 | a capture of the direct-title pattern at a position is a `tt`+digits id standing between `/title/` and `/` there |
| `Pages.LinkAtComplete` | netflix-ratings-extractor.user.js:260 | wherever the direct-title pattern can match, LinkAt finds that match, so the capture at a position is unique |
| `Pages.FirstLink` | netflix-ratings-extractor.user.js:263-264 | the result is the leftmost match of the direct-title pattern, and there is none only when no position matches |
| `Pages.ResolveImdb` | netflix-ratings-extractor.user.js:252-269 | the id is empty or `tt` (either letter in either case, since the search pattern has the `i` flag) followed by digits; on a search page it is the search pattern's capture, or empty when that pattern finds nothing; on a title page it is lower-case `tt`+digits from the leftmost `/title/tt…/` link, and empty exactly when the page has no such link |
| `Pages.Resolved` | netflix-ratings-extractor.user.js:263-269 | after the lookup `imdb_id` is always set, to a captured title id or to `''`, and no other field changes |
| `GetFlix.InitialQueue` | netflix-ratings-extractor.user.js:108-122 | a new run's queue is exactly two entries: a save of the column-title record, then the fetch of page 1 |
| `GetFlix.Continuation` | netflix-ratings-extractor.user.js:194-196 | a listing reply queues `parseRatings` with its own page number, and an IMDB reply queues `parseImdb` with its own record (the closure at lines 241-243); both carry the reply text |
| `GetFlix.DetailActions` | netflix-ratings-extractor.user.js:213-226 | one `getImdbId` entry per listing match, in match order |
| `GetFlix.RatingsActions` | netflix-ratings-extractor.user.js:213-230 | parsing a page appends its records in order, then `getRatingsPage(num+1)` as the last entry if and only if the page contains `paginationLink-next` |
| `GetFlix.Dispatch` | netflix-ratings-extractor.user.js:166-182 | only `saveRating` writes output; only the two fetch tags start requests; fetches and saves queue nothing; an unknown tag has no effect; `parseImdb` follows the corrected behaviour (see ## Findings) |
| `GetFlix.ReplyKeepsArgument` | netflix-ratings-extractor.user.js:241-243 | the reply to a request started by an action is queued with that action's own page number or record |
| `GetFlix.ParseImdbSavesOnce` | netflix-ratings-extractor.user.js:263-273 | parsing an IMDB reply queues exactly one `saveRating`, of the same record with only `imdb_id` set |
| `GetFlix.ImdbPageAsWritten` | netflix-ratings-extractor.user.js:252-273 | as written, parsing an IMDB reply queues no save exactly when the reply is a search page and `new RegExp` rejects the pattern built from the title; in every other case it queues exactly what the corrected queue does, the one save of the resolved record |
| `GetFlix.BadTitleIsNeverSaved` | netflix-ratings-extractor.user.js:256 | for the title `*batteries not included` and a search reply, the script as written saves nothing, while the modelled queue saves the row with an empty `imdb_id` |
| `GetFlix.DispatchKeepsInvariant` | netflix-ratings-extractor.user.js:159-182 | dispatching a well-formed entry queues only well-formed entries and starts only well-formed requests: page numbers from 1, records awaiting IMDB with no id, saves only of the header or of records whose id is set |
| `GetFlix.ContinuationKeepsInvariant` | netflix-ratings-extractor.user.js:241-243 | the entry an `onload` closure queues for a well-formed request is well-formed |
| `GetFlix.SavedRowIsComplete` | netflix-ratings-extractor.user.js:281-288 | every row the queue can write has seven columns when the five scraped text fields hold no tab (they cannot hold a line break), and its last column is `imdb_id`, `''` or a captured title id, never `undefined` |
| `GetFlix.Driver.constructor` | netflix-ratings-extractor.user.js:154-155 | the script loads with an empty queue, an empty results area and no pending timer |
| `GetFlix.Driver.Start` | netflix-ratings-extractor.user.js:106-125 | starting writes the header row after any earlier output, leaves `getRatingsPage(1)` as the only entry, and arms the timer |
| `GetFlix.Driver.Stop` | netflix-ratings-extractor.user.js:127-133 | stopping empties the queue and clears the timer |
| `GetFlix.Driver.Step` | netflix-ratings-extractor.user.js:156-183 | one step keeps the invariant and arms the timer; on an empty queue it does nothing else; otherwise it removes exactly the head entry, keeps the rest in order, and appends only that entry's effect at the tail and to the output; any row it writes is that of a well-formed save, so SavedRowIsComplete applies to it; a `parseImdb` head follows the corrected behaviour (see ## Findings) |
| `GetFlix.Driver.GetRatingsPage` | netflix-ratings-extractor.user.js:187-198 | a listing fetch of a page numbered from 1 starts one request for that page number and keeps the invariant |
| `GetFlix.Driver.GetImdbId` | netflix-ratings-extractor.user.js:235-245 | an IMDB fetch of a scraped record with no id yet starts one request for that record and keeps the invariant |
| `GetFlix.Driver.OnLoad` | netflix-ratings-extractor.user.js:194-196 | a reply appends exactly its continuation at the tail, whether or not the run was stopped meanwhile, and keeps the invariant; the IMDB closure at lines 241-243 behaves the same |
| `GetFlix.Driver.ParseRatingsPage` | netflix-ratings-extractor.user.js:202-231 | the loop appends exactly RatingsActions to the queue and keeps the invariant |
| `GetFlix.Driver.ParseImdbPage` | netflix-ratings-extractor.user.js:249-274 | for a scraped record with no id yet, appends exactly one save of the resolved record and keeps the invariant (corrected behaviour, see ## Findings) |
| `GetFlix.Driver.SaveRating` | netflix-ratings-extractor.user.js:278-289 | appends the record's row, leaves earlier output untouched and keeps the invariant |
| `GetFlix.StopThenStep` | netflix-ratings-extractor.user.js:127-160 | after a stop, a step dispatches nothing: the queue stays empty, nothing is written and no request starts |

## Left out

- The menu commands, buttons, text area and menu box (lines 75-102) are UI. The results area is the string `Driver.output`.
- `GM_xmlhttpRequest`, the URLs and `encodeURI`/`parseInt` are not modelled. A request is its `Fetch` value, and its reply is the text passed to `Driver.OnLoad`. A request that fails never calls `onload`, so it stays in `Driver.inFlight`.
- `getNice`, `Math.random` and the delays are not modelled. `setTimeout`/`clearTimeout` become the flag `Driver.timerArmed`. A second Start while a run is going makes a second timer chain that Stop cannot cancel; the flag does not show that.
- The listing pattern (line 212) and the search-results pattern (line 256) are not modelled as regular expressions. They are the functions `Scraper.listing` and `Scraper.search`. `Pages.NothingToRepeat` is only one sufficient case of a pattern JavaScript rejects.
- `console` logging is not modelled.
- `innerHTML +=` parses and re-serialises HTML; the model appends the plain row text.
- `Text.FormatTenths`: does not model floating point. JavaScript prints exponent notation from 10^21 and loses precision above 2^53; the model prints any rating exactly.
- `GetFlix.SavedRowIsComplete`: a scraped text field that holds a tab breaks the seven columns; the lemma assumes none does. A line break cannot occur, because the capture groups stop at line terminators.
- `GetFlix.Driver.ParseImdbPage`: the JavaScript object `detail` is shared between queue entries and changed in place. The model passes it by value. When `imdb_id` is set, no other queue entry holds that object, so the difference cannot be seen.
- Later versions of the script add alternate titles, article moves, colon retries, alias matching, lazy scrolling and progress counters. This version has none of them, so neither does the model.

## Findings

| source | as written | input that shows it | evidently intended | confidence | as-written member | corrected member |
|---|---|---|---|---|---|---|
| netflix-ratings-extractor.user.js:256 | The title is pasted unescaped into `new RegExp`. When the pattern is invalid, the constructor throws. The exception leaves `runQueue` after the `shift` and before the `push`, so the movie is dropped without a row. | a movie titled `*batteries not included` whose IMDB reply is a search page (the pattern then has `*` right after `.*?`) | the row is written with an empty `imdb_id` and the run goes on, as the header comment at lines 27-28 says | medium; not executed | `GetFlix.ImdbPageAsWritten` | `GetFlix.ParseImdbSavesOnce` |

=== FILE: getflix.dfy ===
/** The action queue that drives a GetFlix run: tagged actions taken from
    the head one at a time, each handler appending its follow-up actions at
    the tail, rows appended to the results area. */
module GetFlix {
  import opened Options
  import opened Text
  import opened Records
  import opened Pages

  /** One entry of `actionQueue`: its tag and arguments. `Unknown` stands
      for an entry with any other tag. */
  datatype Action =
    | GetRatingsPage(page: nat)
    | ParseRatings(page: nat, text: string)
    | GetImdbId(detail: Detail)
    | ParseImdb(detail: Detail, text: string)
    | SaveRating(detail: Detail)
    | Unknown(tag: string)

  /** A request in flight, given by the argument its `onload` closure holds. */
  datatype Fetch = RatingsFetch(page: nat) | ImdbFetch(detail: Detail)

  /** The queue `startGetFlix` installs: the header row first, then the
      fetch of listing page 1. */
  function InitialQueue(): (q: seq<Action>)
    ensures |q| == 2
    ensures q[0].SaveRating? && Fields(q[0].detail) == ColumnTitles
    ensures q[1] == GetRatingsPage(1)
  {
    [SaveRating(Header()), GetRatingsPage(1)]
  }

  /** The action an `onload` closure appends when the reply `text` for `f`
      arrives. */
  function Continuation(f: Fetch, text: string): (a: Action)
    ensures f.RatingsFetch? ==> a.ParseRatings? && a.page == f.page && a.text == text
    ensures f.ImdbFetch? ==> a.ParseImdb? && a.detail == f.detail && a.text == text
  {
    match f
    case RatingsFetch(n) => ParseRatings(n, text)
    case ImdbFetch(d) => ParseImdb(d, text)
  }

  /** One `getImdbId` action per listing match, in match order. */
  function DetailActions(ms: seq<ListingMatch>): (r: seq<Action>)
    ensures |r| == |ms|
    ensures forall k | 0 <= k < |ms| :: r[k] == GetImdbId(ExtractDetail(ms[k]))
  {
    if ms == [] then []
    else DetailActions(ms[..|ms| - 1]) + [GetImdbId(ExtractDetail(ms[|ms| - 1]))]
  }

  /** What `parseRatingsPage(num, text)` appends: one `getImdbId` per record
      of the page in page order, then the fetch of page `num + 1` when and
      only when the page has a next-page link. */
  function RatingsActions(num: nat, text: string, sc: Scraper): (r: seq<Action>)
    ensures |r| == |sc.listing(text)| + (if HasNextPage(text) then 1 else 0)
    ensures forall k | 0 <= k < |sc.listing(text)| :: r[k] == GetImdbId(ExtractDetail(sc.listing(text)[k]))
    ensures HasNextPage(text) <==> exists k | 0 <= k < |r| :: r[k].GetRatingsPage?
    ensures HasNextPage(text) ==> r[|r| - 1] == GetRatingsPage(num + 1)
  {
    var r := DetailActions(sc.listing(text)) + (if HasNextPage(text) then [GetRatingsPage(num + 1)] else []);
    assert forall k | 0 <= k < |sc.listing(text)| :: !r[k].GetRatingsPage?;
    assert HasNextPage(text) ==> r[|r| - 1].GetRatingsPage?;
    r
  }

  /** The effect of dispatching one action: the actions it appends, the text
      it appends to the results, the request it starts. */
  datatype Effect = Effect(pushed: seq<Action>, written: string, issued: Option<Fetch>)

  /** The `switch` of `runQueue`, with the handler each tag calls. */
  function Dispatch(a: Action, sc: Scraper): (e: Effect)
    ensures e.written != "" <==> a.SaveRating?
    ensures e.issued.Some? <==> (a.GetRatingsPage? || a.GetImdbId?)
    ensures (a.GetRatingsPage? || a.GetImdbId? || a.SaveRating?) ==> e.pushed == []
    ensures a.Unknown? ==> e == Effect([], "", None)
  {
    match a
    case GetRatingsPage(n) => Effect([], "", Some(RatingsFetch(n)))
    case ParseRatings(n, text) => Effect(RatingsActions(n, text, sc), "", None)
    case GetImdbId(d) => Effect([], "", Some(ImdbFetch(d)))
    case ParseImdb(d, text) => Effect([SaveRating(Resolved(d, text, sc))], "", None)
    case SaveRating(d) => Effect([], Line(d), None)
    case Unknown(_) => Effect([], "", None)
  }

  /** The reply to a request started by an action is handed on with that
      action's own argument. */
  lemma ReplyKeepsArgument(a: Action, sc: Scraper, text: string)
    requires Dispatch(a, sc).issued.Some?
    ensures a.GetRatingsPage? ==> Continuation(Dispatch(a, sc).issued.value, text) == ParseRatings(a.page, text)
    ensures a.GetImdbId? ==> Continuation(Dispatch(a, sc).issued.value, text) == ParseImdb(a.detail, text)
  {
  }

  /** Parsing an IMDB reply queues exactly one save of the same record, its
      `imdb_id` now set and every other field unchanged. */
  lemma ParseImdbSavesOnce(d: Detail, text: string, sc: Scraper)
    ensures |Dispatch(ParseImdb(d, text), sc).pushed| == 1
    ensures Dispatch(ParseImdb(d, text), sc).pushed[0].SaveRating?
    ensures Dispatch(ParseImdb(d, text), sc).pushed[0].detail.(imdbId := d.imdbId) == d
    ensures Dispatch(ParseImdb(d, text), sc).pushed[0].detail.imdbId.Some?
  {
  }

  /** What `parseImdbPage` as written queues. When `new RegExp` rejects the
      search pattern the exception leaves `runQueue` before the push: the
      record is dropped without a row and without the "Couldn't get IMDB id"
      message. */
  function ImdbPageAsWritten(d: Detail, text: string, sc: Scraper): (r: seq<Action>)
    ensures |r| <= 1
    ensures r == [] <==> IsSearchPage(text) && sc.search(text, d.title, d.year).BadPattern?
    ensures r != [] ==> r == Dispatch(ParseImdb(d, text), sc).pushed
  {
    if IsSearchPage(text) && sc.search(text, d.title, d.year).BadPattern? then []
    else [SaveRating(Resolved(d, text, sc))]
  }

  /** The smallest IMDB search-results reply. */
  const SearchReply: string := "<title>IMDb Search</title>"

  /** A movie titled `*batteries not included` that IMDB answers with a
      search page is never written by the script as it stands, while the
      queue modelled here writes its row with an empty `imdb_id`. */
  lemma BadTitleIsNeverSaved(sc: Scraper, d: Detail)
    requires RejectsBadPatterns(sc)
    requires d.title == "*batteries not included"
    ensures IsSearchPage(SearchReply)
    ensures ImdbPageAsWritten(d, SearchReply, sc) == []
    ensures Dispatch(ParseImdb(d, SearchReply), sc).pushed == [SaveRating(d.(imdbId := Some("")))]
  {
    assert SearchReply[0..7] == "<title>";
    assert SearchReply[12..18] == "Search";
    assert SearchReply[18..26] == "</title>";
    assert SearchTitleAt(SearchReply, 0, 12, 18);
    assert NothingToRepeat(d.title);
  }

  /** The five text fields of a scraped record, each a lazy `(.*?)` capture,
      hold no line terminator. */
  predicate ScrapedText(d: Detail) {
    OnOneLine(d.id) && OnOneLine(d.title) && OnOneLine(d.year) && OnOneLine(d.mpaa) && OnOneLine(d.genre)
  }

  /** A record between the listing and the IMDB reply: scraped, not yet
      looked up. */
  predicate Unresolved(d: Detail) {
    ScrapedText(d) && d.rating.Tenths? && d.imdbId.None?
  }

  /** A scraped record whose lookup is done: `imdb_id` is a captured title
      id or, when nothing matched, the empty string. */
  predicate Settled(d: Detail) {
    ScrapedText(d) && d.rating.Tenths? && d.imdbId.Some? && (d.imdbId.value == "" || IsSearchId(d.imdbId.value))
  }

  /** What holds of every queued action: page numbers count from 1, records
      waiting for IMDB have no id yet, and a save is of the header or of a
      settled record. */
  predicate ActionOk(a: Action) {
    match a
    case GetRatingsPage(n) => n >= 1
    case ParseRatings(n, _) => n >= 1
    case GetImdbId(d) => Unresolved(d)
    case ParseImdb(d, _) => Unresolved(d)
    case SaveRating(d) => d == Header() || Settled(d)
    case Unknown(_) => true
  }

  predicate FetchOk(f: Fetch) {
    match f
    case RatingsFetch(n) => n >= 1
    case ImdbFetch(d) => Unresolved(d)
  }

  /** Dispatching an action that satisfies the invariant appends only
      actions, and starts only requests, that satisfy it too. */
  lemma DispatchKeepsInvariant(a: Action, sc: Scraper)
    requires ActionOk(a)
    ensures forall k | 0 <= k < |Dispatch(a, sc).pushed| :: ActionOk(Dispatch(a, sc).pushed[k])
    ensures Dispatch(a, sc).issued.Some? ==> FetchOk(Dispatch(a, sc).issued.value)
  {
  }

  lemma ContinuationKeepsInvariant(f: Fetch, text: string)
    requires FetchOk(f)
    ensures ActionOk(Continuation(f, text))
  {
  }

  /** Text on one line holds no line break. */
  lemma OneLineHasNoNewline(s: string)
    requires OnOneLine(s)
    ensures '\n' !in s
  {
  }

  /** A captured title id holds no tab and no line break. */
  lemma SearchIdIsPlain(s: string)
    requires IsSearchId(s)
    ensures '\t' !in s && '\n' !in s
  {
    forall i | 2 <= i < |s| ensures IsDigit(s[i]) {
      assert s[2..][i - 2] == s[i];
    }
  }

  /** Every row the queue writes is a complete row: when the five scraped
      text fields hold no tab it splits into exactly seven columns, and the
      last one is the column title, a captured title id or empty, never
      `undefined`. */
  lemma SavedRowIsComplete(d: Detail)
    requires ActionOk(SaveRating(d))
    requires '\t' !in d.id && '\t' !in d.title && '\t' !in d.year && '\t' !in d.mpaa && '\t' !in d.genre
    ensures |Split(Line(d)[..|Line(d)| - 1], '\t')| == |ColumnTitles|
    ensures var last := Split(Line(d)[..|Line(d)| - 1], '\t')[6];
      last == "imdb_id" || last == "" || IsSearchId(last)
  {
    if d != Header() {
      RatingTextIsPlain(d.rating.n);
      OneLineHasNoNewline(d.id);
      OneLineHasNoNewline(d.title);
      OneLineHasNoNewline(d.year);
      OneLineHasNoNewline(d.mpaa);
      OneLineHasNoNewline(d.genre);
      if d.imdbId.value != "" {
        SearchIdIsPlain(d.imdbId.value);
      }
      assert PlainFields(d);
    }
    LineRoundTrip(d);
  }

  /** The running script: `actionQueue`, the results text area, whether
      `actionTimer` holds a pending `runQueue`, and (for the proofs only) the
      requests whose replies have not yet arrived. */
  class Driver {
    var queue: seq<Action>
    var output: string
    var timerArmed: bool
    ghost var inFlight: multiset<Fetch>
    const scraper: Scraper

    ghost predicate Valid()
      reads this
    {
      (forall k | 0 <= k < |queue| :: ActionOk(queue[k]))
      && (forall f | f in inFlight :: FetchOk(f))
    }

    constructor (scraper: Scraper)
      ensures Valid() && this.scraper == scraper
      ensures queue == [] && output == "" && !timerArmed && inFlight == multiset{}
    {
      this.scraper := scraper;
      queue := [];
      output := "";
      timerArmed := false;
      inFlight := multiset{};
    }

    /** `startGetFlix`: install the initial queue and run the first step,
        which writes the header row. */
    method Start()
      requires Valid()
      modifies this
      ensures Valid()
      ensures queue == [Action.GetRatingsPage(1)]
      ensures output == old(output) + Line(Header())
      ensures timerArmed && inFlight == old(inFlight)
    {
      queue := InitialQueue();
      var issued := Step();
    }

    /** `stopGetFlix`: cancel the pending step and empty the queue. Replies
        already on their way still arrive. */
    method Stop()
      requires Valid()
      modifies this`queue, this`timerArmed
      ensures Valid()
      ensures queue == [] && !timerArmed
    {
      timerArmed := false;
      queue := [];
    }

    /** `runQueue`: schedule the next step, then take the head action, if
        any, and dispatch it. The request it starts, if any, is returned. */
    method Step() returns (issued: Option<Fetch>)
      requires Valid()
      modifies this
      ensures Valid() && timerArmed
      ensures old(queue) == [] ==> queue == [] && output == old(output) && issued.None?
      ensures old(queue) != [] ==>
        var e := Dispatch(old(queue)[0], scraper);
        queue == old(queue)[1..] + e.pushed && output == old(output) + e.written && issued == e.issued
      ensures inFlight == old(inFlight) + (if issued.Some? then multiset{issued.value} else multiset{})
      ensures output == old(output) || (old(queue)[0].SaveRating? && ActionOk(old(queue)[0])
        && output == old(output) + Line(old(queue)[0].detail))
    {
      timerArmed := true;
      issued := None;
      if queue == [] {
        return;
      }
      var action := queue[0];
      queue := queue[1..];
      DispatchKeepsInvariant(action, scraper);
      match action {
        case GetRatingsPage(n) =>
          var f := GetRatingsPage(n);
          issued := Some(f);
        case ParseRatings(n, text) =>
          ParseRatingsPage(n, text);
        case GetImdbId(d) =>
          var f := GetImdbId(d);
          issued := Some(f);
        case ParseImdb(d, text) =>
          ParseImdbPage(d, text);
        case SaveRating(d) =>
          SaveRating(d);
        case Unknown(_) =>
      }
    }

    /** `getRatingsPage`: request listing page `pagenum`. */
    method GetRatingsPage(pagenum: nat) returns (f: Fetch)
      requires Valid() && pagenum >= 1
      modifies this`inFlight
      ensures Valid()
      ensures f == RatingsFetch(pagenum)
      ensures inFlight == old(inFlight) + multiset{f}
    {
      f := RatingsFetch(pagenum);
      inFlight := inFlight + multiset{f};
    }

    /** `getImdbId`: request the IMDB search for `detail`'s title. */
    method GetImdbId(detail: Detail) returns (f: Fetch)
      requires Valid() && Unresolved(detail)
      modifies this`inFlight
      ensures Valid()
      ensures f == ImdbFetch(detail)
      ensures inFlight == old(inFlight) + multiset{f}
    {
      f := ImdbFetch(detail);
      inFlight := inFlight + multiset{f};
    }

    /** The `onload` closure of a request: queue the matching parse action
        with the reply text. */
    method OnLoad(f: Fetch, text: string)
      requires Valid() && f in inFlight
      modifies this`queue, this`inFlight
      ensures Valid()
      ensures queue == old(queue) + [Continuation(f, text)]
      ensures inFlight == old(inFlight) - multiset{f}
    {
      ContinuationKeepsInvariant(f, text);
      match f {
        case RatingsFetch(n) =>
          queue := queue + [ParseRatings(n, text)];
        case ImdbFetch(d) =>
          queue := queue + [ParseImdb(d, text)];
      }
      inFlight := inFlight - multiset{f};
    }

    /** `parseRatingsPage`: one `getImdbId` per listing match, then the next
        page if the page links to one. */
    method ParseRatingsPage(num: nat, text: string)
      requires Valid() && num >= 1
      modifies this`queue
      ensures Valid()
      ensures queue == old(queue) + RatingsActions(num, text, scraper)
    {
      var matches := scraper.listing(text);
      var i := 0;
      while i < |matches|
        invariant 0 <= i <= |matches|
        invariant queue == old(queue) + DetailActions(matches[..i])
        invariant Valid()
      {
        var detail := ExtractDetail(matches[i]);
        queue := queue + [Action.GetImdbId(detail)];
        assert matches[..i + 1][..i] == matches[..i];
        i := i + 1;
      }
      assert matches[..i] == matches;
      if HasNextPage(text) {
        queue := queue + [Action.GetRatingsPage(num + 1)];
      }
    }

    /** `parseImdbPage`: set `imdb_id` from the reply and queue the save.
        A search pattern JavaScript rejects counts here as no match (see
        ImdbPageAsWritten for what the script itself does). */
    method ParseImdbPage(detail: Detail, text: string)
      requires Valid() && Unresolved(detail)
      modifies this`queue
      ensures Valid()
      ensures queue == old(queue) + [Action.SaveRating(Resolved(detail, text, scraper))]
    {
      var found: Option<SearchId>;
      if IsSearchPage(text) {
        found := SearchCapture(scraper.search(text, detail.title, detail.year));
      } else {
        var link := FirstTitleId(text);
        if link.Some? {
          ImdbIdIsSearchId(link.value);
          found := Some(link.value);
        } else {
          found := None;
        }
      }
      var resolved: Detail;
      if found.Some? {
        resolved := detail.(imdbId := Some(found.value));
      } else {
        resolved := detail.(imdbId := Some(""));
      }
      queue := queue + [Action.SaveRating(resolved)];
    }

    /** `saveRating`: append the record's row to the results. */
    method SaveRating(detail: Detail)
      requires Valid()
      modifies this`output
      ensures Valid()
      ensures output == old(output) + Line(detail)
    {
      output := output + Line(detail);
    }
  }

  /** Once stopped, a step dispatches nothing: the queue stays empty and no
      row is written and no request started. */
  method StopThenStep(d: Driver) returns (issued: Option<Fetch>)
    requires d.Valid()
    modifies d
    ensures d.Valid()
    ensures d.queue == [] && d.output == old(d.output) && issued.None?
    ensures d.inFlight == old(d.inFlight)
  {
    d.Stop();
    issued := d.Step();
  }
}

=== FILE: options.dfy ===
/** The optional value used wherever the script has "no match" or "not set". */
module Options {

  datatype Option<+T> = None | Some(value: T)
}

=== FILE: pages.dfy ===
/** What the script reads out of the two kinds of page it fetches: the
    "movies you've seen" listing and the IMDB reply. The two patterns that
    capture several groups with lazy, line-spanning matches (the listing
    pattern and the search-results pattern, into which the title and year
    are pasted unescaped) are given as functions of a Scraper; the plain
    tests (next-page marker, search page, direct title link) are spelled out. */
module Pages {
  import opened Options
  import opened Text
  import opened Records

  /** The six groups one match of the listing pattern captures: movie id,
      title, year, MPAA rating, genre and the star-gauge number (`\d+?`
      before `.gif`, so at least one digit). The five text groups are lazy
      `(.*?)` groups, and `.` does not match a line terminator, so none of
      them spans a line. */
  datatype ListingMatch = ListingMatch(
    id: LineText,
    title: LineText,
    year: LineText,
    mpaa: LineText,
    genre: LineText,
    gauge: Digits)

  /** An IMDB title id: `tt` followed by one or more digits. */
  predicate IsImdbId(s: string) {
    |s| > 2 && s[..2] == "tt" && AllDigits(s[2..])
  }

  type ImdbId = s: string | IsImdbId(s) witness "tt0"

  predicate IsLetterT(c: char) {
    c == 't' || c == 'T'
  }

  /** What `(tt\d+)` captures under the `i` flag of the search-results
      pattern: `tt` in either case, then one or more digits. */
  predicate IsSearchId(s: string) {
    |s| > 2 && IsLetterT(s[0]) && IsLetterT(s[1]) && AllDigits(s[2..])
  }

  type SearchId = s: string | IsSearchId(s) witness "tt0"

  /** Every IMDB title id is also a capture the search pattern can make. */
  lemma ImdbIdIsSearchId(s: string)
    requires IsImdbId(s)
    ensures IsSearchId(s)
  {
    assert s[0] == s[..2][0] && s[1] == s[..2][1];
  }

  /** What testing the search-results pattern built from a title and a
      year against a reply gives: the captured id, no match, or no test at
      all because `new RegExp` rejects the pattern (the title and year are
      pasted into it unescaped). */
  datatype SearchOutcome = Found(id: SearchId) | NotFound | BadPattern

  /** The two multi-group patterns. `listing(text)` is the successive
      matches of the listing pattern over the page, in page order.
      `search(text, title, year)` is the outcome of the search-results
      pattern built from `title` and `year`. */
  datatype Scraper = Scraper(
    listing: string -> seq<ListingMatch>,
    search: (string, string, string) -> SearchOutcome)

  /** The title starts with `*` or `+`, so the pattern has a quantifier
      straight after the lazy `.*?` and JavaScript rejects it ("nothing to
      repeat"). */
  predicate NothingToRepeat(title: string) {
    |title| > 0 && (title[0] == '*' || title[0] == '+')
  }

  /** The search abstraction agrees with JavaScript on the patterns it
      certainly rejects. */
  ghost predicate RejectsBadPatterns(sc: Scraper) {
    forall text, title, year | NothingToRepeat(title) :: sc.search(text, title, year) == BadPattern
  }

  /** The record built from one listing match: the captured groups as they
      are, the rating as the gauge number divided by ten, and no IMDB id. */
  function ExtractDetail(m: ListingMatch): (d: Detail)
    ensures d.id == m.id && d.title == m.title && d.year == m.year
    ensures d.mpaa == m.mpaa && d.genre == m.genre
    ensures d.rating.Tenths? && d.imdbId.None?
    ensures OnOneLine(d.id) && OnOneLine(d.title) && OnOneLine(d.year) && OnOneLine(d.mpaa) && OnOneLine(d.genre)
  {
    Detail(m.id, m.title, m.year, m.mpaa, m.genre, Tenths(DecimalValue(m.gauge)), None)
  }

  /** The rating written for a listing match reads back as the gauge number
      divided by ten. */
  lemma ExtractedRating(m: ListingMatch)
    ensures ParseTenths(RatingText(ExtractDetail(m).rating)) == Some(DecimalValue(m.gauge))
  {
  }

  /** Whether the listing page links to a further page. */
  predicate HasNextPage(text: string) {
    Contains(text, "paginationLink-next")
  }

  /** `<title>.*?Search.*?</title>` matches with `<title>` at `i`, `Search`
      at `j` and `</title>` at `k`. */
  predicate SearchTitleAt(text: string, i: nat, j: nat, k: nat) {
    i + 7 <= j && j + 6 <= k && k + 8 <= |text|
    && StartsAt(text, i, "<title>") && StartsAt(text, j, "Search") && StartsAt(text, k, "</title>")
    && OnOneLine(text[i + 7..j]) && OnOneLine(text[j + 6..k])
  }

  /** The reply is IMDB's search-results page rather than a title page. */
  predicate IsSearchPage(text: string) {
    exists i: nat, j: nat, k: nat | i <= |text| && j <= |text| && k <= |text| :: SearchTitleAt(text, i, j, k)
  }

  /** `/\/title\/(tt\d+)\//` matches at index `i`, capturing `id`. */
  predicate TitleLinkAt(text: string, i: nat, id: string) {
    IsImdbId(id) && StartsAt(text, i, "/title/" + id + "/")
  }

  /** The length of the run of digits starting at index `j`. */
  function DigitRun(text: string, j: nat): (n: nat)
    requires j <= |text|
    ensures j + n <= |text|
    ensures forall k | j <= k < j + n :: IsDigit(text[k])
    ensures j + n == |text| || !IsDigit(text[j + n])
    decreases |text| - j
  {
    if j < |text| && IsDigit(text[j]) then 1 + DigitRun(text, j + 1) else 0
  }

  /** The id the direct-title pattern captures when it is tried at index `i`. */
  function LinkAt(text: string, i: nat): (r: Option<ImdbId>)
    ensures r.Some? ==> TitleLinkAt(text, i, r.value)
  {
    if StartsAt(text, i, "/title/tt") then
      var n := DigitRun(text, i + 9);
      if n > 0 && i + 9 + n < |text| && text[i + 9 + n] == '/' then
        var id := text[i + 7..i + 9 + n];
        assert text[i..i + 9][7..] == "tt";
        assert id[..2] == "tt";
        assert forall k | 0 <= k < |id[2..]| :: id[2..][k] == text[i + 9 + k];
        var w := "/title/" + id + "/";
        assert forall k | 0 <= k < 7 :: text[i + k] == text[i..i + 9][k] == w[k];
        assert forall k | 7 <= k < |w| :: text[i + k] == w[k];
        assert text[i..i + |w|] == w;
        Some(id)
      else None
    else None
  }

  /** Whenever the direct-title pattern can match at `i`, LinkAt finds that
      match: the capture is determined by the position. */
  lemma LinkAtComplete(text: string, i: nat, id: string)
    requires TitleLinkAt(text, i, id)
    ensures LinkAt(text, i) == Some(id)
  {
    var m := |id| - 2;
    var w := text[i..i + |id| + 8];
    assert w == "/title/" + id + "/";
    assert text[i..i + 9] == w[..9];
    assert w[..9] == "/title/tt";
    assert forall k | 0 <= k < m :: text[i + 9 + k] == id[2..][k];
    assert text[i + 9 + m] == w[|id| + 7] == '/';
    var n := DigitRun(text, i + 9);
    assert n == m;
    assert forall k | 0 <= k < |id| :: text[i + 7 + k] == w[7 + k] == id[k];
    assert text[i + 7..i + 9 + n] == id;
  }

  /** A leftmost match of the direct-title pattern at or after `from`. */
  datatype Hit = Hit(pos: nat, id: ImdbId)

  function FirstLink(text: string, from: nat): (r: Option<Hit>)
    requires from <= |text|
    ensures r.Some? ==> from <= r.value.pos < |text| && TitleLinkAt(text, r.value.pos, r.value.id)
    ensures r.Some? ==> forall k, id | from <= k < r.value.pos :: !TitleLinkAt(text, k, id)
    ensures r.None? ==> forall k, id | from <= k :: !TitleLinkAt(text, k, id)
    decreases |text| - from
  {
    if from == |text| then None
    else
      match LinkAt(text, from)
      case Some(id) => Some(Hit(from, id))
      case None =>
        var r := FirstLink(text, from + 1);
        assert forall id :: !TitleLinkAt(text, from, id) by {
          forall id | TitleLinkAt(text, from, id) ensures false {
            LinkAtComplete(text, from, id);
          }
        }
        r
  }

  /** What the direct-title pattern captures in the whole reply. */
  function FirstTitleId(text: string): Option<ImdbId> {
    match FirstLink(text, 0)
    case Some(h) => Some(h.id)
    case None => None
  }

  /** The IMDB id `parseImdbPage` settles on for `d`: on a search page the
      search-results pattern's capture, on any other page the first
      `/title/tt…/` link; the empty string when the chosen pattern does not
      match or cannot be built. The search pattern is case-insensitive, so
      its capture may start with `TT`; the direct link's never does. */
  function ResolveImdb(d: Detail, text: string, sc: Scraper): (id: string)
    ensures id == "" || IsSearchId(id)
    ensures !IsSearchPage(text) ==> id == "" || IsImdbId(id)
    ensures IsSearchPage(text) ==> (id == "" <==> !sc.search(text, d.title, d.year).Found?)
    ensures IsSearchPage(text) && id != "" ==> sc.search(text, d.title, d.year) == Found(id)
    ensures !IsSearchPage(text) ==> (id == "" <==> forall k, x :: !TitleLinkAt(text, k, x))
    ensures !IsSearchPage(text) && id != "" ==>
      exists k :: TitleLinkAt(text, k, id) && forall j, x | j < k :: !TitleLinkAt(text, j, x)
  {
    if IsSearchPage(text) then
      var found := SearchCapture(sc.search(text, d.title, d.year));
      if found.Some? then found.value else ""
    else
      var found := FirstTitleId(text);
      if found.Some? then ImdbIdIsSearchId(found.value); found.value else ""
  }

  /** The id a search outcome captured, if any. */
  function SearchCapture(o: SearchOutcome): Option<SearchId> {
    match o
    case Found(id) => Some(id)
    case _ => None
  }

  /** `detail` after `parseImdbPage`: `imdb_id` set, nothing else changed. */
  function Resolved(d: Detail, text: string, sc: Scraper): (r: Detail)
    ensures r.imdbId.Some? && (r.imdbId.value == "" || IsSearchId(r.imdbId.value))
    ensures r.(imdbId := d.imdbId) == d
  {
    d.(imdbId := Some(ResolveImdb(d, text, sc)))
  }
}

=== FILE: records.dfy ===
/** The `detail` record the script passes from action to action, and the
    tab-separated line `saveRating` writes for it. */
module Records {
  import opened Options
  import opened Text

  /** The `rating` property: the header holds the column title, every
      scraped record a number, which the script computes as the star-gauge
      number divided by ten; here that number is kept as a count of tenths. */
  datatype Rating = Label(text: string) | Tenths(n: nat)

  /** One movie as the script holds it. `imdbId` is `None` until the IMDB
      reply has been parsed (the property is absent on the JavaScript
      object), and `Some("")` when the lookup found nothing. */
  datatype Detail = Detail(
    id: string,
    title: string,
    year: string,
    mpaa: string,
    genre: string,
    rating: Rating,
    imdbId: Option<string>)

  /** The names of the output columns, in output order. */
  const ColumnTitles: seq<string> := ["id", "title", "year", "mpaa", "genre", "rating", "imdb_id"]

  /** The record `startGetFlix` queues first so that the column titles are
      written as the first row: every property holds its own name. */
  function Header(): Detail {
    Detail("id", "title", "year", "mpaa", "genre", Label("rating"), Some("imdb_id"))
  }

  /** JavaScript's string conversion of the `rating` property. */
  function RatingText(r: Rating): string {
    match r
    case Label(t) => t
    case Tenths(n) => FormatTenths(n)
  }

  /** JavaScript's string conversion of `imdb_id`: an absent property reads
      as `undefined`. */
  function ImdbText(o: Option<string>): string {
    match o
    case Some(s) => s
    case None => "undefined"
  }

  /** The seven output fields of a record, in column order. */
  function Fields(d: Detail): (f: seq<string>)
    ensures |f| == |ColumnTitles|
  {
    [d.id, d.title, d.year, d.mpaa, d.genre, RatingText(d.rating), ImdbText(d.imdbId)]
  }

  /** The text `saveRating` appends for `d`: the seven fields separated by
      tabs and ended by a newline. */
  function Line(d: Detail): (line: string)
    ensures line == Join(Fields(d), '\t') + "\n"
    ensures |line| > 0 && line[|line| - 1] == '\n'
  {
    var f := Fields(d);
    var nl := "\n";
    assert f[5..][1..] == f[6..] && f[4..][1..] == f[5..] && f[3..][1..] == f[4..];
    assert f[2..][1..] == f[3..] && f[1..][1..] == f[2..];
    var r6 := f[6] + nl;
    var r5 := f[5] + ("\t" + r6);
    assert r5 == Join(f[5..], '\t') + nl;
    var r4 := f[4] + ("\t" + r5);
    assert r4 == Join(f[4..], '\t') + nl;
    var r3 := f[3] + ("\t" + r4);
    assert r3 == Join(f[3..], '\t') + nl;
    var r2 := f[2] + ("\t" + r3);
    assert r2 == Join(f[2..], '\t') + nl;
    var r1 := f[1] + ("\t" + r2);
    assert r1 == Join(f[1..], '\t') + nl;
    var r0 := f[0] + ("\t" + r1);
    assert r0 == Join(f, '\t') + nl;
    r0
  }

  /** No field of `d` holds a tab or a line break. */
  predicate PlainFields(d: Detail) {
    forall i | 0 <= i < |Fields(d)| :: '\t' !in Fields(d)[i] && '\n' !in Fields(d)[i]
  }

  /** A printed rating number never holds a tab or a line break. */
  lemma RatingTextIsPlain(n: nat)
    ensures '\t' !in RatingText(Tenths(n)) && '\n' !in RatingText(Tenths(n))
  {
  }

  /** A written line is one row of exactly seven columns: dropping its final
      newline and splitting at tabs gives back the record's fields in column
      order, and the newline is the only one in the line. */
  lemma LineRoundTrip(d: Detail)
    requires PlainFields(d)
    ensures Split(Line(d)[..|Line(d)| - 1], '\t') == Fields(d)
    ensures '\n' !in Line(d)[..|Line(d)| - 1]
  {
    var body := Join(Fields(d), '\t');
    assert Line(d)[..|Line(d)| - 1] == body;
    SplitJoin(Fields(d), '\t');
    if '\n' in body {
      JoinCharsFromFields(Fields(d), '\t', '\n');
    }
  }

  /** A character of a join other than the separator lies in some field. */
  lemma {:induction false} JoinCharsFromFields(fields: seq<string>, sep: char, c: char)
    requires c != sep && c in Join(fields, sep)
    ensures exists i | 0 <= i < |fields| :: c in fields[i]
    decreases |fields|
  {
    if |fields| > 1 {
      var tail := Join(fields[1..], sep);
      assert Join(fields, sep) == fields[0] + ([sep] + tail);
      if c !in fields[0] {
        assert c in tail;
        JoinCharsFromFields(fields[1..], sep, c);
        var i :| 0 <= i < |fields[1..]| && c in fields[1..][i];
        assert c in fields[i + 1];
      }
    }
  }

  /** The header row lists the column titles. */
  lemma HeaderLineIsColumnTitles()
    ensures Fields(Header()) == ColumnTitles
    ensures Line(Header()) == Join(ColumnTitles, '\t') + "\n"
  {
  }
}

=== FILE: text.dfy ===
/** Character-level helpers: decimal digits, JavaScript's rendering of a
    number of tenths, substring search and tab-separated fields. */
module Text {
  import opened Options

  predicate IsDigit(c: char) {
    '0' <= c <= '9'
  }

  predicate AllDigits(s: string) {
    forall i | 0 <= i < |s| :: IsDigit(s[i])
  }

  /** What `\d+` matches: one or more decimal digits. */
  type Digits = s: string | |s| > 0 && AllDigits(s) witness "0"

  function DigitValue(c: char): (d: nat)
    requires IsDigit(c)
    ensures d < 10
  {
    c as int - '0' as int
  }

  function DigitChar(d: nat): (c: char)
    requires d < 10
    ensures IsDigit(c) && DigitValue(c) == d
  {
    ('0' as int + d) as char
  }

  /** The number a digit string denotes, most significant digit first;
      leading zeros are allowed, as in JavaScript's string-to-number. */
  function DecimalValue(s: string): nat
    requires AllDigits(s)
  {
    if s == [] then 0
    else 10 * DecimalValue(s[..|s| - 1]) + DigitValue(s[|s| - 1])
  }

  /** The decimal numeral of `n` with no leading zero, as JavaScript prints
      an integral number. */
  function NatToDecimal(n: nat): (s: string)
    ensures |s| > 0 && AllDigits(s)
    ensures DecimalValue(s) == n
    ensures s[0] == '0' ==> s == "0"
    decreases n
  {
    if n < 10 then [DigitChar(n)]
    else
      var high := NatToDecimal(n / 10);
      var s := high + [DigitChar(n % 10)];
      assert s[..|s| - 1] == high;
      s
  }

  /** JavaScript's `String(n / 10)` for a whole number `n` of tenths:
      the integral part, then `.` and the tenths digit unless it is zero
      (50 prints as `5`, 35 as `3.5`, 5 as `0.5`). */
  function FormatTenths(n: nat): (s: string)
    ensures |s| > 0 && IsDigit(s[0])
    ensures forall i | 0 <= i < |s| :: IsDigit(s[i]) || s[i] == '.'
    ensures (n % 10 == 0) <==> AllDigits(s)
    ensures s[0] == '0' ==> n < 10 && (|s| == 1 || s[1] == '.')
  {
    var whole := NatToDecimal(n / 10);
    if n % 10 == 0 then whole
    else
      var s := whole + ['.', DigitChar(n % 10)];
      assert !IsDigit(s[|s| - 2]);
      s
  }

  /** Reads a numeral with at most one decimal place back as a number of
      tenths: the inverse of FormatTenths. */
  function ParseTenths(s: string): Option<nat> {
    if |s| > 0 && AllDigits(s) then Some(10 * DecimalValue(s))
    else if |s| >= 3 && s[|s| - 2] == '.' && IsDigit(s[|s| - 1]) && AllDigits(s[..|s| - 2]) then
      Some(10 * DecimalValue(s[..|s| - 2]) + DigitValue(s[|s| - 1]))
    else None
  }

  /** The printed rating denotes exactly `n` tenths. */
  lemma FormatTenthsRoundTrip(n: nat)
    ensures ParseTenths(FormatTenths(n)) == Some(n)
  {
  }

  lemma FormatTenthsExamples()
    ensures FormatTenths(50) == "5"
    ensures FormatTenths(35) == "3.5"
    ensures FormatTenths(5) == "0.5"
  {
  }

  /** The characters JavaScript's `.` does not match. */
  predicate IsLineTerminator(c: char) {
    c == '\n' || c == '\r' || c == '\U{2028}' || c == '\U{2029}'
  }

  predicate OnOneLine(s: string) {
    forall i | 0 <= i < |s| :: !IsLineTerminator(s[i])
  }

  /** What a lazy `(.*?)` group can capture: text with no line terminator. */
  type LineText = s: string | OnOneLine(s)

  /** `pat` occurs in `text` starting at index `i`. */
  predicate StartsAt(text: string, i: nat, pat: string) {
    i + |pat| <= |text| && text[i..i + |pat|] == pat
  }

  /** `pat` occurs somewhere in `text` (a regular expression made only of
      plain characters, tested against `text`). */
  predicate Contains(text: string, pat: string) {
    exists i: nat | i <= |text| :: StartsAt(text, i, pat)
  }

  /** The fields joined with `sep` between each two of them. */
  function Join(fields: seq<string>, sep: char): string {
    if |fields| == 0 then ""
    else if |fields| == 1 then fields[0]
    else fields[0] + ([sep] + Join(fields[1..], sep))
  }

  /** JavaScript's `s.split(sep)` for a one-character separator. */
  function Split(s: string, sep: char): (r: seq<string>)
    ensures |r| >= 1
  {
    if s == [] then [""]
    else
      var rest := Split(s[1..], sep);
      if s[0] == sep then [""] + rest
      else [[s[0]] + rest[0]] + rest[1..]
  }

  lemma {:induction false} SplitPrefix(a: string, b: string, sep: char)
    requires sep !in a
    ensures Split(a + b, sep) == [a + Split(b, sep)[0]] + Split(b, sep)[1..]
    decreases |a|
  {
    if a != [] {
      assert (a + b)[1..] == a[1..] + b;
      assert sep !in a[1..] by {
        assert forall c | c in a[1..] :: c in a;
      }
      SplitPrefix(a[1..], b, sep);
      var sb := Split(b, sep);
      var rest := Split((a + b)[1..], sep);
      assert rest == [a[1..] + sb[0]] + sb[1..];
      assert rest[0] == a[1..] + sb[0] && rest[1..] == sb[1..];
      assert (a + b)[0] == a[0] != sep;
      assert Split(a + b, sep) == [[a[0]] + rest[0]] + rest[1..];
      assert [a[0]] + (a[1..] + sb[0]) == a + sb[0];
    } else {
      var sb := Split(b, sep);
      assert a + b == b && a + sb[0] == sb[0];
      assert [sb[0]] + sb[1..] == sb;
    }
  }

  /** Splitting a join gives back the fields, provided no field holds the
      separator. */
  lemma {:induction false} SplitJoin(fields: seq<string>, sep: char)
    requires |fields| >= 1
    requires forall i | 0 <= i < |fields| :: sep !in fields[i]
    ensures Split(Join(fields, sep), sep) == fields
    decreases |fields|
  {
    if |fields| == 1 {
      SplitPrefix(fields[0], "", sep);
      assert fields[0] + "" == fields[0];
    } else {
      var tail := Join(fields[1..], sep);
      SplitJoin(fields[1..], sep);
      assert ([sep] + tail)[1..] == tail;
      var st := Split([sep] + tail, sep);
      assert st == [""] + fields[1..];
      assert st[0] == "" && st[1..] == fields[1..];
      assert Join(fields, sep) == fields[0] + ([sep] + tail);
      assert sep !in fields[0];
      SplitPrefix(fields[0], [sep] + tail, sep);
      assert fields[0] + st[0] == fields[0];
      assert fields == [fields[0]] + fields[1..];
    }
  }
}
